=== FILE: README.md ===
# Este build script: message-catalogue check, message sorting and prerendering

This project models the pure decisions inside the Este gulp build script
(`gulpfile.babel.js`) and proves properties of them in Dafny. There are three
parts:

- **`checkMessages`** (module `Catalogue`). This task compares each locale's
  message keys with the keys of the `_default` catalogue. For every other
  locale it prints the locale name, then its *missing* keys (default keys the
  locale lacks), then its *unused* keys (locale keys the default lacks). A
  locale whose keys match is not printed at all. An empty category is never
  printed.
- **`extractMessages`** (module `Extraction`). The collected react-intl
  message descriptors are sorted by `id` before they are serialised.
  `localeCompare` is replaced by an abstract total preorder `le` on ids.
- **`to-html`** (modules `Strings`, `BuildTree`, `Render`, `Readiness`). When
  a stdout chunk of the server contains `Server started`, the handler does
  three things. `moveAssets` moves every entry of `build` into a new
  `build/assets`. `toHtml` fetches `/` and `/404` and writes the bodies to
  `index.html` and `404.html`. Then, on every path, the server is killed,
  `done()` is called and a message is logged.
  - The `build` directory is a `map<string, Entry>`.
  - The server's answer to each route is a parameter `server: string -> Response`.
  - The handler's effects are an ordered trace of `Event`s.

`Results` holds the shared `Result`/`Option` datatypes.

Behaviour of the code worth knowing:

- **Pages of resolved routes are written even when another route fails.**
  This holds on Node before 10 (see "Left out" for later versions).
  `Promise.all` rejects, but the `then` callbacks of the routes whose fetch
  had already resolved still call `fs.writeFile`. A page is written exactly
  when its fetch resolves, which happens on the response's `end`; the fetch
  rejects only on a request `error`. `proc.kill()` in the `finally` block can
  cut a response short, and such a response may still resolve, with a
  truncated body, and be written after `done()`. A request that had no
  response yet rejects. In the model, `server(route)` stands for the final
  outcome of each fetch, including any effect of the kill: a body, possibly
  truncated, or a connection error. See `Readiness.PartialRender`.
- **The HTTP status is never checked.** A body served with status 404 or 500
  is written like any other.
- **Relocation fails whenever `build/assets` exists.** `mkdirSync` throws
  EEXIST before any entry is moved.
- **The server is started even when lint, tests or the build failed.** The
  callback passed to `runSequence` takes no error argument, so it runs
  whatever the earlier tasks did. `clean` only empties `build`
  (`del('build/*')`), so files from an earlier run can still be there, and
  on a fresh checkout `build` may not exist at all.
- **There is no readiness timeout, and the handler is never disarmed.**
  Every chunk that contains `Server started` kills the server and calls
  `done()` again. A second such chunk finds `assets` already present. See
  `Readiness.SecondMarker` and `Readiness.CleanupPerMarker`.

## Model

| member | source | states |
|---|---|---|
| Catalogue.Diff | gulpfile.babel.js:258 | the result holds exactly the items of `a` that are not in `b`, each as often as in `a`, and is no longer than `a` |
| Catalogue.DiffAppend | gulpfile.babel.js:258 | `diff` keeps order: the diff of a concatenation is the concatenation of the diffs |
| Catalogue.DiffNothing | gulpfile.babel.js:258 | `diff(a, [])` is `a` |
| Catalogue.DiffSelf | gulpfile.babel.js:258 | `diff(a, a)` is empty |
| Catalogue.DiffEmptyIff | gulpfile.babel.js:258 | `diff(a, b)` is empty exactly when every item of `a` occurs in `b` |
| Catalogue.ReportFor | gulpfile.babel.js:268-270 | a locale's report carries its name, the default keys it lacks as missing, and its keys the default lacks as unused |
| Catalogue.ReportForMeaning | gulpfile.babel.js:268-271 | the missing and unused lists are disjoint, and the locale is reported exactly when its keys differ from the default's |
| Catalogue.LogLines | gulpfile.babel.js:259-263 | `log` prints nothing for an empty list; otherwise a two-space title, then one four-space line per key, in order |
| Catalogue.KeyLinesAreNotTitles | gulpfile.babel.js:259-263 | a title line appears in `log`'s output only when the list is non-empty and the title is its own |
| Catalogue.TitleInBlocks | gulpfile.babel.js:273-274 | in the two category blocks, a title appears exactly when the category it heads is non-empty |
| Catalogue.ReportLines | gulpfile.babel.js:272-274 | a reported locale's block is the locale name followed by its two category blocks, so the name and a line for every missing or unused key are printed |
| Catalogue.CategoryLines | gulpfile.babel.js:273-274 | the two category blocks under a locale are empty exactly when nothing is missing or unused, and every missing or unused key gets its own line |
| Catalogue.MissingLoggedIff | gulpfile.babel.js:273 | under the locale name, "missing messages" is printed exactly when keys are missing |
| Catalogue.UnusedLoggedIff | gulpfile.babel.js:274 | under the locale name, "unused messages" is printed exactly when the locale has unused keys |
| Catalogue.Reports | gulpfile.babel.js:265-271 | every report belongs to a non-default locale and has something to print, and every non-default locale with a difference is reported |
| Catalogue.ReportsAppend | gulpfile.babel.js:265-267 | reports appear in locale order |
| Catalogue.ReportsSingle | gulpfile.babel.js:266-271 | one locale gives one report when it is not `_default` and its keys differ, and none otherwise; with `ReportsAppend`, the reports are exactly one per such locale, in locale order |
| Catalogue.DefaultNeverReported | gulpfile.babel.js:265-266 | `_default` is never checked against itself |
| Catalogue.RenderReports | gulpfile.babel.js:267-274 | nothing is printed exactly when there is no report; every report's locale name and a line for each of its keys are printed |
| Catalogue.RenderReportsAppend | gulpfile.babel.js:267-274 | blocks are printed in report order: rendering a concatenation of reports prints each part in turn |
| Catalogue.RenderReportsSingle | gulpfile.babel.js:272-274 | one report is printed as exactly its own block |
| Catalogue.DefaultKeys | gulpfile.babel.js:256 | the default keys are found exactly when a `_default` catalogue exists, and are that catalogue's keys |
| Catalogue.CheckMessages | gulpfile.babel.js:253-276 | the task throws exactly when there is no `_default` catalogue; otherwise it prints nothing exactly when every other locale has the default's key set, and it prints the name of every locale whose keys differ and a line for every key in only one of that locale and the default |
| Catalogue.SilentIff | gulpfile.babel.js:265-274 | nothing is printed exactly when every locale other than `_default` has the default key set |
| Catalogue.DifferingLocalesPrinted | gulpfile.babel.js:265-274 | every locale other than `_default` whose keys differ is printed by name, and so is every key in only one of it and the default |
| Extraction.Collect | gulpfile.babel.js:238-242 | every message of every file is collected; nothing is collected only when every file has no messages |
| Extraction.CollectMultiset | gulpfile.babel.js:240 | pushing one more file's messages adds exactly those messages |
| Extraction.Insert | gulpfile.babel.js:244 | inserting into an id-sorted list gives a sorted permutation of the list plus the message |
| Extraction.SortById | gulpfile.babel.js:244 | the sort returns a permutation of its input ordered by id |
| Extraction.ExtractMessages | gulpfile.babel.js:235-244 | the serialised messages are a permutation of the collected ones, ordered by id |
| Strings.IndexOfFrom | gulpfile.babel.js:144 | the result is -1 exactly when there is no occurrence from `from` on; otherwise it is the first occurrence |
| Strings.IndexOf | gulpfile.babel.js:144 | `indexOf` is -1 exactly when the chunk does not contain the marker; otherwise it is the first occurrence |
| BuildTree.MakeDir | gulpfile.babel.js:123 | `mkdirSync` throws EEXIST exactly when the name is taken; otherwise it adds an empty directory and changes nothing else |
| BuildTree.RenameInto | gulpfile.babel.js:125-128 | `renameSync` succeeds exactly when the entry and the target directory exist and differ; the entry leaves the root and appears in the directory; nothing else changes |
| BuildTree.ReadDir | gulpfile.babel.js:122 | the listing names every entry of `build` exactly once |
| BuildTree.RenameStep | gulpfile.babel.js:124-129 | renaming one more listed entry into `assets` succeeds and moves just that entry |
| BuildTree.Relocate | gulpfile.babel.js:121-130 | the intended effect of `moveAssets`: EEXIST exactly when `assets` exists; otherwise `assets` is the only entry of `build` and holds the old entries |
| BuildTree.MoveAssets | gulpfile.babel.js:121-130 | listing, `mkdirSync` and one rename per listed entry have exactly the effect of `Relocate`: only `assets` remains, every old entry is inside it unchanged, and `assets` is not moved into itself |
| Render.UrlsInjective | gulpfile.babel.js:104-107 | the route table maps distinct routes to distinct files, none named `assets`, and every route starts with `/` |
| Render.ToHtml | gulpfile.babel.js:132-136 | one write for each route whose fetch resolved, to that route's file with its body and regardless of status; every route whose fetch errored is listed as failed |
| Render.AllResolvedWritesEveryRoute | gulpfile.babel.js:133-136 | when every fetch resolves, nothing fails and there is exactly one write per route, to its file and with its body; the model lists the writes in table order, while the program issues each as its response arrives |
| Render.InjectiveRoutesDistinctTargets | gulpfile.babel.js:133-135 | with an injective route table, no two writes target the same file |
| Render.ApplyWrite | gulpfile.babel.js:134 | a write creates the page at its name, or replaces the file there, and changes nothing else |
| Render.ApplyWritesLand | gulpfile.babel.js:133-136 | writes to distinct targets each land with their contents and leave every other entry alone, whatever order they complete in |
| Readiness.Attempt | gulpfile.babel.js:145-149 | when `assets` exists, only the EEXIST error is logged and `build` is unchanged. Otherwise the relocation comes first. Rendering is reported exactly when every route resolved; if not, one failed route's error is logged. `build` then holds `assets` with the old build, plus exactly the pages of the resolved routes, with their bodies |
| Readiness.PagesLand | gulpfile.babel.js:133-135 | after relocation, the pages of exactly the resolved routes land beside `assets`, which keeps the old build |
| Readiness.WritesLand | gulpfile.babel.js:133-135 | after relocation each resolved route's page holds its body, `assets` is untouched, and the only new names are the pages |
| Readiness.ResolvedAreWritten | gulpfile.babel.js:133-134 | a file is written exactly when it belongs to a route whose fetch resolved |
| Readiness.FailedRoutes | gulpfile.babel.js:136 | `Promise.all` rejects exactly when some route's fetch failed, and the route it reports is one of those |
| Readiness.OnStdout | gulpfile.babel.js:142-155 | a chunk without the marker changes nothing; a marker chunk appends events ending in kill, done and the log message, starts with the relocation exactly when `assets` was absent, and leaves `build` alone when relocation fails |
| Readiness.RenderedIff | gulpfile.babel.js:145-150 | rendering is reported exactly when relocation succeeded and every route resolved, and then it directly follows the relocation |
| Readiness.PrerenderScenario | gulpfile.babel.js:100-157 | with `bundle.js` built and both routes served: `assets/bundle.js`, `index.html` and `404.html` hold the expected contents and the trace is relocate, render, kill, done, log |
| Readiness.PartialRender | gulpfile.babel.js:133-153 | when `/404` cannot be fetched, `index.html` is still written, `404.html` is not, that route's error is logged and cleanup runs |
| Readiness.SecondMarker | gulpfile.babel.js:142-155 | a second marker chunk fails at `mkdirSync` with EEXIST, leaves `build` unchanged and runs cleanup again |
| Readiness.CleanupPerChunk | gulpfile.babel.js:150-154 | one chunk adds one kill and one done when it holds the marker, and none otherwise |
| Readiness.CleanupPerMarker | gulpfile.babel.js:142-155 | over any chunk stream, kill and done run exactly as often as a chunk contains the marker |

## Left out

- The `env`, `clean`, `build`, `eslint`, `mocha`, `server`, native, `deploy` and `bare` tasks, and the `run-sequence` wiring. They are thin calls into gulp, eslint, mocha, webpack, `del` and `gulp-bg`. The model starts from the `build` directory they leave behind.
- Spawning the server, `proc.kill`, the stderr forwarding and the stdout stream itself. These are I/O. Chunks are given as strings, and the kill is an event in the trace.
- The `http.get` request and its chunked UTF-8 body. The whole response of each route is given as `Response`.
- `Promise.all` concurrency and the un-awaited `fs.writeFile`. Writes are modelled as issued, not ordered. The log message and `done()` may run before the files are on disk. This timing is not modelled; only the final contents are.
- Handler runs that overlap in time. Each marker chunk's handler is treated as finishing before the next chunk arrives.
- `renameSync` failures other than a missing source or target, and a directory moved into itself. Replacing an existing destination is modelled as an overwrite. In `moveAssets` the destination never exists.
- `readdirSync` on a missing `build` directory, which throws ENOENT and is logged by the `catch`. This can happen when `build` never ran, for example on a fresh checkout where lint or tests failed. The model's `Tree` is the contents of an existing `build` directory and cannot represent a missing one.
- Render.ApplyWrite: follows Node versions before 10, where `fs.writeFile` without a callback is accepted and the write goes ahead. From Node 10 on, that call throws `ERR_INVALID_CALLBACK` inside each fetch's `then`. Every route's promise then rejects, no page is written, `Promise.all` rejects and the `catch` logs that TypeError or a connection error that came first; `assets` is still created. `Readiness.Attempt`, `Readiness.PrerenderScenario` and `Readiness.PartialRender` describe the behaviour before Node 10.
- A failed `fs.writeFile` before Node 10, for example over a directory. With no callback, the error is rethrown as an uncaught exception that ends the process. This is not modelled. After relocation the page targets never exist, so in the model a write always lands.
- Which failed route is logged: which failed route's error `Promise.all` reports depends on the order in which the responses arrive. The model reports the first failed route in table order.
- `loadMessages` and the babel react-intl transform. Their outputs are given as catalogues (key lists in `Object.keys` order) and as message lists per file.
- The JSON/ES6 text that `extractMessages` and `native` write to disk. It is string templating over `JSON.stringify`.
- Extraction.SortById: does not state which of two messages with equivalent ids comes first. `Array.prototype.sort` was not guaranteed stable in the engines of the time, and `localeCompare` is abstracted as a total preorder.

=== FILE: build_tree.dfy ===
/** The `build` directory and the `moveAssets` step of the `to-html` task:
    every entry the build produced is moved into a new `build/assets`
    directory so that rendered pages can take the root. */
module BuildTree {
  import opened Results

  /** A directory entry: a file with its contents, or a directory. */
  datatype Entry = File(contents: string) | Dir(children: map<string, Entry>)

  /** A directory's entries by name (`build` itself, or one below it). */
  type Tree = map<string, Entry>

  /** The errors the synchronous `fs` calls throw here. */
  datatype FsError =
    | AlreadyExists(name: string)   // EEXIST from mkdirSync
    | NoSuchEntry(name: string)     // ENOENT from renameSync
    | NotADirectory(name: string)   // ENOTDIR from renameSync
    | IntoItself(name: string)      // EINVAL: a directory moved into itself

  const AssetsDir := "assets"

  /** `fs.mkdirSync('build/<name>')`: a new empty directory, or EEXIST when
      the name is taken. Nothing else changes. */
  function MakeDir(root: Tree, name: string): (r: Result<Tree, FsError>)
    ensures r.Err? <==> name in root
    ensures r.Err? ==> r.error == AlreadyExists(name)
    ensures r.Ok? ==> r.value.Keys == root.Keys + {name} && r.value[name] == Dir(map[])
    ensures r.Ok? ==> forall n :: n in root ==> r.value[n] == root[n]
  {
    if name in root then Err(AlreadyExists(name)) else Ok(root[name := Dir(map[])])
  }

  /** `fs.renameSync('build/<name>', 'build/<dir>/<name>')`. A replaced
      destination entry is overwritten. */
  function RenameInto(root: Tree, name: string, dir: string): (r: Result<Tree, FsError>)
    ensures r.Ok? <==> name in root && dir in root && root[dir].Dir? && name != dir
    ensures r.Ok? ==> r.value.Keys == root.Keys - {name}
    ensures r.Ok? ==> r.value[dir] == Dir(root[dir].children[name := root[name]])
    ensures r.Ok? ==> forall n :: n in root && n != name && n != dir ==> r.value[n] == root[n]
  {
    if name !in root then Err(NoSuchEntry(name))
    else if dir !in root then Err(NoSuchEntry(dir))
    else if !root[dir].Dir? then Err(NotADirectory(dir))
    else if name == dir then Err(IntoItself(name))
    else Ok((root - {name})[dir := Dir(root[dir].children[name := root[name]])])
  }

  /** `fs.readdirSync('build')`: every entry name once, in an order the file
      system chooses. */
  method ReadDir(root: Tree) returns (names: seq<string>)
    ensures forall n :: n in names <==> n in root
    ensures forall i, j :: 0 <= i < j < |names| ==> names[i] != names[j]
  {
    names := [];
    var pending := root.Keys;
    while pending != {}
      invariant pending <= root.Keys
      invariant forall n :: n in names <==> n in root && n !in pending
      invariant forall i, j :: 0 <= i < j < |names| ==> names[i] != names[j]
      decreases pending
    {
      var n :| n in pending;
      names := names + [n];
      pending := pending - {n};
    }
  }

  /** The effect `moveAssets` is meant to have: the old root becomes the
      contents of `assets`, which is then the only entry of the root. It
      throws EEXIST when `assets` is already there. */
  function Relocate(root: Tree): (r: Result<Tree, FsError>)
    ensures r.Err? <==> AssetsDir in root
    ensures r.Err? ==> r.error == AlreadyExists(AssetsDir)
    ensures r.Ok? ==> r.value.Keys == {AssetsDir} && r.value[AssetsDir] == Dir(root)
  {
    if AssetsDir in root then Err(AlreadyExists(AssetsDir)) else Ok(map[AssetsDir := Dir(root)])
  }

  /** The state of `build` after the entries in `moved` have been renamed
      into `assets` and the others not yet. */
  ghost predicate PartlyMoved(cur: Tree, root: Tree, moved: set<string>) {
    && AssetsDir !in root
    && moved <= root.Keys
    && AssetsDir in cur && cur[AssetsDir].Dir?
    && cur.Keys == {AssetsDir} + (root.Keys - moved)
    && (forall n :: n in cur && n != AssetsDir ==> cur[n] == root[n])
    && cur[AssetsDir].children.Keys == moved
    && (forall n :: n in moved ==> cur[AssetsDir].children[n] == root[n])
  }

  /** Renaming one more listed entry into `assets` succeeds and moves it. */
  lemma RenameStep(cur: Tree, root: Tree, moved: set<string>, name: string)
    requires PartlyMoved(cur, root, moved)
    requires name in root && name !in moved
    ensures RenameInto(cur, name, AssetsDir).Ok?
    ensures PartlyMoved(RenameInto(cur, name, AssetsDir).value, root, moved + {name})
  {
    var next := RenameInto(cur, name, AssetsDir).value;
    assert next[AssetsDir].children == cur[AssetsDir].children[name := root[name]];
  }

  /** The entries moved after `i` iterations are the first `i` listed ones;
      the next listed one has not been moved yet. */
  lemma ListingStep(names: seq<string>, i: nat, moved: set<string>)
    requires i < |names|
    requires forall a, b :: 0 <= a < b < |names| ==> names[a] != names[b]
    requires forall n :: n in moved <==> n in names[..i]
    ensures names[i] !in moved
    ensures forall n :: n in moved + {names[i]} <==> n in names[..i + 1]
  {
    assert names[..i + 1] == names[..i] + [names[i]];
  }

  /** Once every entry has been moved, `build` holds just `assets`, and
      `assets` holds the old root. */
  lemma AllMoved(cur: Tree, root: Tree, moved: set<string>)
    requires PartlyMoved(cur, root, moved)
    requires moved == root.Keys
    ensures Relocate(root) == Ok(cur)
  {
    assert cur[AssetsDir].children == root;
    assert cur == map[AssetsDir := Dir(root)];
  }

  /** `moveAssets`: list the root, create `assets`, then rename each listed
      entry into it. Since the listing is taken before `assets` exists,
      `assets` is never moved into itself and every rename succeeds, so the
      step has exactly the effect `Relocate` describes. */
  method MoveAssets(root: Tree) returns (r: Result<Tree, FsError>)
    ensures r == Relocate(root)
  {
    var names := ReadDir(root);
    var made := MakeDir(root, AssetsDir);
    if made.Err? {
      return Err(made.error);
    }
    var cur := made.value;
    ghost var moved: set<string> := {};
    for i := 0 to |names|
      invariant PartlyMoved(cur, root, moved)
      invariant forall n :: n in moved <==> n in names[..i]
    {
      ListingStep(names, i, moved);
      RenameStep(cur, root, moved, names[i]);
      cur := RenameInto(cur, names[i], AssetsDir).value;
      moved := moved + {names[i]};
    }
    assert names[..|names|] == names;
    AllMoved(cur, root, moved);
    return Ok(cur);
  }

  /** Why the listing must come first: had `build` been listed after
      `mkdirSync`, the listing would hold `assets`, and renaming it into
      itself throws. */
  lemma ListingAfterMakeDirFails(root: Tree)
    requires AssetsDir !in root
    ensures AssetsDir in MakeDir(root, AssetsDir).value
    ensures RenameInto(MakeDir(root, AssetsDir).value, AssetsDir, AssetsDir) == Err(IntoItself(AssetsDir))
  {
  }
}

=== FILE: catalogue.dfy ===
/** The `checkMessages` task: compare every locale's message keys with the
    keys of the `_default` catalogue and report the differences. */
module Catalogue {
  import opened Results

  /** Name of the catalogue every other locale is compared with. */
  const DefaultLocale := "_default"
  const MissingTitle := "missing messages"
  const UnusedTitle := "unused messages"

  /** One entry of the object `loadMessages` returns: a locale name and the
      keys of its message object, in `Object.keys` order. */
  datatype Catalogue = Catalogue(locale: string, keys: seq<string>)

  /** What is printed for one locale. */
  datatype Report = Report(locale: string, missing: seq<string>, unused: seq<string>)

  /** `messages._default` was undefined, so `Object.keys` threw. */
  datatype CheckError = NoDefaultCatalogue

  /** Every key of `a` occurs in `b` and vice versa. */
  ghost predicate SameKeys(a: seq<string>, b: seq<string>) {
    (forall x :: x in a ==> x in b) && (forall x :: x in b ==> x in a)
  }

  // ---------------------------------------------------------------------
  // diff
  // ---------------------------------------------------------------------

  /** `diff(a, b)`: the items of `a` that do not occur in `b`, kept in their
      order and with their multiplicity. */
  function Diff(a: seq<string>, b: seq<string>): (r: seq<string>)
    ensures |r| <= |a|
    ensures forall x :: x in r <==> x in a && x !in b
    ensures forall x :: multiset(r)[x] == if x in b then 0 else multiset(a)[x]
  {
    if |a| == 0 then []
    else
      assert a == [a[0]] + a[1..];
      (if a[0] in b then [] else [a[0]]) + Diff(a[1..], b)
  }

  /** `diff` preserves order: filtering a concatenation filters each part. */
  lemma {:induction false} DiffAppend(a1: seq<string>, a2: seq<string>, b: seq<string>)
    ensures Diff(a1 + a2, b) == Diff(a1, b) + Diff(a2, b)
    decreases |a1|
  {
    if |a1| == 0 {
      assert a1 + a2 == a2;
    } else {
      assert (a1 + a2)[1..] == a1[1..] + a2;
      DiffAppend(a1[1..], a2, b);
    }
  }

  /** `diff(a, [])` removes nothing. */
  lemma {:induction false} DiffNothing(a: seq<string>)
    ensures Diff(a, []) == a
    decreases |a|
  {
    if |a| > 0 {
      var empty: seq<string> := [];
      assert a[0] !in empty;
      assert Diff(a, empty) == [a[0]] + Diff(a[1..], empty);
      DiffNothing(a[1..]);
      assert a == [a[0]] + a[1..];
    }
  }

  /** `diff(a, a)` is empty. */
  lemma DiffSelf(a: seq<string>)
    ensures Diff(a, a) == []
  {
  }

  /** `diff(a, b)` is empty exactly when every item of `a` occurs in `b`. */
  lemma DiffEmptyIff(a: seq<string>, b: seq<string>)
    ensures Diff(a, b) == [] <==> forall x :: x in a ==> x in b
  {
    var r := Diff(a, b);
    if r != [] {
      assert r[0] in r;
    }
  }

  // ---------------------------------------------------------------------
  // One locale
  // ---------------------------------------------------------------------

  /** The report computed for `c` against the default keys `d`: the default
      keys the locale lacks, and the locale keys the default does not have. */
  function ReportFor(d: seq<string>, c: Catalogue): (r: Report)
    ensures r.locale == c.locale
    ensures forall x :: x in r.missing <==> x in d && x !in c.keys
    ensures forall x :: x in r.unused <==> x in c.keys && x !in d
  {
    Report(c.locale, Diff(d, c.keys), Diff(c.keys, d))
  }

  /** The report has something to print. */
  predicate Flagged(r: Report) {
    r.missing != [] || r.unused != []
  }

  /** The missing and unused keys of a locale are disjoint, and the locale is
      flagged exactly when its keys differ from the default keys. */
  lemma ReportForMeaning(d: seq<string>, c: Catalogue)
    ensures forall x :: !(x in ReportFor(d, c).missing && x in ReportFor(d, c).unused)
    ensures Flagged(ReportFor(d, c)) <==> !SameKeys(d, c.keys)
  {
    DiffEmptyIff(d, c.keys);
    DiffEmptyIff(c.keys, d);
  }

  /** `log(what, keys)`: nothing for an empty list, otherwise a title line
      indented by two spaces followed by one line per key indented by four. */
  function LogLines(what: string, keys: seq<string>): (lines: seq<string>)
    ensures lines == [] <==> keys == []
    ensures keys != [] ==> |lines| == |keys| + 1 && lines[0] == "  " + what
    ensures forall i :: 0 <= i < |keys| ==> lines[i + 1] == "    " + keys[i]
  {
    if |keys| == 0 then []
    else ["  " + what] + seq(|keys|, i requires 0 <= i < |keys| => "    " + keys[i])
  }

  /** The lines printed for one report: the locale name, then the two
      categories. */
  function ReportLines(r: Report): (lines: seq<string>)
    requires Flagged(r)
    ensures |lines| > 0 && lines[0] == r.locale
    ensures lines[1..] == CategoryLines(r)
    ensures forall k :: k in r.missing || k in r.unused ==> ("    " + k) in lines
  {
    [r.locale] + CategoryLines(r)
  }

  /** The lines printed under the locale name: the missing keys, then the
      unused ones. */
  function CategoryLines(r: Report): (lines: seq<string>)
    ensures lines == [] <==> !Flagged(r)
    ensures forall k :: k in r.missing || k in r.unused ==> ("    " + k) in lines
  {
    assert forall k :: k in r.missing ==> ("    " + k) in LogLines(MissingTitle, r.missing) by {
      forall k | k in r.missing ensures ("    " + k) in LogLines(MissingTitle, r.missing) {
        var i :| 0 <= i < |r.missing| && r.missing[i] == k;
        assert LogLines(MissingTitle, r.missing)[i + 1] == "    " + k;
      }
    }
    assert forall k :: k in r.unused ==> ("    " + k) in LogLines(UnusedTitle, r.unused) by {
      forall k | k in r.unused ensures ("    " + k) in LogLines(UnusedTitle, r.unused) {
        var i :| 0 <= i < |r.unused| && r.unused[i] == k;
        assert LogLines(UnusedTitle, r.unused)[i + 1] == "    " + k;
      }
    }
    LogLines(MissingTitle, r.missing) + LogLines(UnusedTitle, r.unused)
  }

  /** Under the locale name, the "missing messages" title is printed exactly
      when keys are missing: an empty category is never logged. */
  lemma MissingLoggedIff(r: Report)
    ensures ("  " + MissingTitle) in CategoryLines(r) <==> r.missing != []
  {
    assert MissingTitle != UnusedTitle by { assert MissingTitle[0] != UnusedTitle[0]; }
    TitleInBlocks(MissingTitle, r.missing, UnusedTitle, r.unused, MissingTitle);
  }

  /** Under the locale name, the "unused messages" title is printed exactly
      when the locale has unused keys. */
  lemma UnusedLoggedIff(r: Report)
    ensures ("  " + UnusedTitle) in CategoryLines(r) <==> r.unused != []
  {
    assert MissingTitle != UnusedTitle by { assert MissingTitle[0] != UnusedTitle[0]; }
    TitleInBlocks(MissingTitle, r.missing, UnusedTitle, r.unused, UnusedTitle);
  }

  /** A title occurs in two consecutive `log` outputs exactly when it is the
      title of a non-empty one of them. */
  lemma TitleInBlocks(what1: string, keys1: seq<string>, what2: string, keys2: seq<string>, title: string)
    requires |title| > 0 && title[0] != ' '
    ensures ("  " + title) in LogLines(what1, keys1) + LogLines(what2, keys2) <==>
      (keys1 != [] && title == what1) || (keys2 != [] && title == what2)
  {
    KeyLinesAreNotTitles(what1, keys1, title);
    KeyLinesAreNotTitles(what2, keys2, title);
  }

  /** A title line of one category appears in `log`'s output only as its
      first line, and never when the category is a different one. */
  lemma KeyLinesAreNotTitles(what: string, keys: seq<string>, title: string)
    requires |title| > 0 && title[0] != ' '
    ensures ("  " + title) in LogLines(what, keys) <==> keys != [] && title == what
  {
    var lines := LogLines(what, keys);
    forall j | 1 <= j < |lines|
      ensures lines[j] != "  " + title
    {
      IndentedIsNotTitle(keys[j - 1], title);
    }
    if keys != [] {
      assert lines == [lines[0]] + lines[1..];
      assert ("  " + title) in lines[1..] ==> false;
      if "  " + title == "  " + what {
        assert title == ("  " + title)[2..];
      }
    }
  }

  /** A key line (four spaces) never reads as a title line (two spaces and a
      title that does not itself start with a space). */
  lemma IndentedIsNotTitle(key: string, title: string)
    requires |title| > 0 && title[0] != ' '
    ensures "    " + key != "  " + title
  {
    assert ("    " + key)[2] != ("  " + title)[2];
  }

  // ---------------------------------------------------------------------
  // All locales
  // ---------------------------------------------------------------------

  /** `rep` is the report of some locale of `messages` other than `_default`. */
  ghost predicate ReportOfSome(rep: Report, messages: seq<Catalogue>, d: seq<string>) {
    exists c :: c in messages && c.locale != DefaultLocale && rep == ReportFor(d, c)
  }

  /** The reports `checkMessages` prints, in locale order: one per locale
      other than `_default` whose keys differ from the default keys. */
  function Reports(messages: seq<Catalogue>, d: seq<string>): (r: seq<Report>)
    ensures forall rep :: rep in r ==> Flagged(rep) && ReportOfSome(rep, messages, d)
    ensures forall c :: c in messages && c.locale != DefaultLocale && Flagged(ReportFor(d, c)) ==>
      ReportFor(d, c) in r
  {
    if |messages| == 0 then []
    else
      var c := messages[0];
      var rest := Reports(messages[1..], d);
      assert forall c' :: c' in messages ==> c' == c || c' in messages[1..];
      assert forall rep :: rep in rest ==> ReportOfSome(rep, messages, d) by {
        forall rep | rep in rest ensures ReportOfSome(rep, messages, d) {
          var c' :| c' in messages[1..] && c'.locale != DefaultLocale && rep == ReportFor(d, c');
          assert c' in messages;
        }
      }
      if c.locale != DefaultLocale && Flagged(ReportFor(d, c)) then
        assert ReportOfSome(ReportFor(d, c), messages, d) by { assert c in messages; }
        [ReportFor(d, c)] + rest
      else rest
  }

  /** One locale yields one report when it is not `_default` and is flagged,
      and none otherwise. */
  lemma ReportsSingle(c: Catalogue, d: seq<string>)
    ensures Reports([c], d) ==
      if c.locale != DefaultLocale && Flagged(ReportFor(d, c)) then [ReportFor(d, c)] else []
  {
    assert [c][1..] == [];
  }

  /** Reports follow the order of the locales. */
  lemma {:induction false} ReportsAppend(m1: seq<Catalogue>, m2: seq<Catalogue>, d: seq<string>)
    ensures Reports(m1 + m2, d) == Reports(m1, d) + Reports(m2, d)
    decreases |m1|
  {
    if |m1| == 0 {
      assert m1 + m2 == m2;
    } else {
      assert (m1 + m2)[1..] == m1[1..] + m2;
      ReportsAppend(m1[1..], m2, d);
    }
  }

  /** The `_default` catalogue is never reported, even when the object holds
      only it. */
  lemma DefaultNeverReported(messages: seq<Catalogue>, d: seq<string>)
    ensures forall rep :: rep in Reports(messages, d) ==> rep.locale != DefaultLocale
  {
  }

  /** The lines of all reports, one block after another: every report's
      locale name and every one of its keys is printed. */
  function RenderReports(reports: seq<Report>): (lines: seq<string>)
    requires forall rep :: rep in reports ==> Flagged(rep)
    ensures lines == [] <==> reports == []
    ensures forall rep :: rep in reports ==> Shown(rep, lines)
  {
    if |reports| == 0 then []
    else
      var head := ReportLines(reports[0]);
      var rest := RenderReports(reports[1..]);
      assert forall rep :: rep in reports ==> rep == reports[0] || rep in reports[1..];
      assert head[0] in head;
      head + rest
  }

  /** The locale name of `rep` and a line for each of its keys occur in
      `lines`. */
  ghost predicate Shown(rep: Report, lines: seq<string>) {
    rep.locale in lines && forall k :: k in rep.missing || k in rep.unused ==> ("    " + k) in lines
  }

  /** The blocks are printed in report order: rendering a concatenation
      renders each part in turn. */
  lemma {:induction false} RenderReportsAppend(r1: seq<Report>, r2: seq<Report>)
    requires forall rep :: rep in r1 ==> Flagged(rep)
    requires forall rep :: rep in r2 ==> Flagged(rep)
    ensures RenderReports(r1 + r2) == RenderReports(r1) + RenderReports(r2)
    decreases |r1|
  {
    if |r1| == 0 {
      assert r1 + r2 == r2;
    } else {
      var rest := r1[1..];
      assert r1 == [r1[0]] + rest;
      assert r1 + r2 == [r1[0]] + (rest + r2);
      assert forall rep :: rep in rest ==> rep in r1;
      RenderReportsAppend(rest, r2);
      RenderReportsCons(r1[0], rest + r2);
      RenderReportsCons(r1[0], rest);
      ConcatAssoc(ReportLines(r1[0]), RenderReports(rest), RenderReports(r2));
    }
  }

  /** Concatenation is associative. */
  lemma ConcatAssoc<T>(a: seq<T>, b: seq<T>, c: seq<T>)
    ensures a + (b + c) == (a + b) + c
  {
  }

  /** Rendering a report in front of others prints its block first. */
  lemma RenderReportsCons(rep: Report, rest: seq<Report>)
    requires Flagged(rep)
    requires forall x :: x in rest ==> Flagged(x)
    ensures forall x :: x in [rep] + rest ==> Flagged(x)
    ensures RenderReports([rep] + rest) == ReportLines(rep) + RenderReports(rest)
  {
    assert ([rep] + rest)[1..] == rest;
  }

  /** A single report is rendered as exactly its own block. */
  lemma RenderReportsSingle(rep: Report)
    requires Flagged(rep)
    ensures RenderReports([rep]) == ReportLines(rep)
  {
    assert [rep][1..] == [];
  }

  /** `messages._default`: the keys of the first catalogue named `_default`. */
  function DefaultKeys(messages: seq<Catalogue>): (r: Option<seq<string>>)
    ensures r.None? <==> forall c :: c in messages ==> c.locale != DefaultLocale
    ensures r.Some? ==> Catalogue(DefaultLocale, r.value) in messages
  {
    if |messages| == 0 then None
    else if messages[0].locale == DefaultLocale then Some(messages[0].keys)
    else DefaultKeys(messages[1..])
  }

  /** The whole task: the console lines it prints, or the error it throws when
      there is no `_default` catalogue. It prints nothing exactly when every
      other locale has the same keys as the default; otherwise it prints the
      name of every locale whose keys differ, and a line for every key that
      is in only one of the default and that locale. */
  function CheckMessages(messages: seq<Catalogue>): (r: Result<seq<string>, CheckError>)
    ensures r.Err? <==> forall c :: c in messages ==> c.locale != DefaultLocale
    ensures r.Ok? ==> (r.value == [] <==>
      forall c :: c in messages && c.locale != DefaultLocale ==> SameKeys(DefaultKeys(messages).value, c.keys))
    ensures r.Ok? ==> forall c ::
      (c in messages && c.locale != DefaultLocale && !SameKeys(DefaultKeys(messages).value, c.keys)) ==>
        c.locale in r.value
    ensures r.Ok? ==> forall c, k ::
      (c in messages && c.locale != DefaultLocale && (k in DefaultKeys(messages).value <==> k !in c.keys)) ==>
        ("    " + k) in r.value
  {
    match DefaultKeys(messages)
    case None => Err(NoDefaultCatalogue)
    case Some(d) =>
      SilentIff(messages, d);
      DifferingLocalesPrinted(messages, d);
      Ok(RenderReports(Reports(messages, d)))
  }

  /** Nothing is printed exactly when every locale other than `_default` has
      the default key set. */
  lemma SilentIff(messages: seq<Catalogue>, d: seq<string>)
    ensures RenderReports(Reports(messages, d)) == [] <==>
      forall c :: c in messages && c.locale != DefaultLocale ==> SameKeys(d, c.keys)
  {
    var reports := Reports(messages, d);
    forall c | c in messages && c.locale != DefaultLocale {
      ReportForMeaning(d, c);
    }
    if reports != [] {
      assert reports[0] in reports;
      assert ReportOfSome(reports[0], messages, d);
      var c :| c in messages && c.locale != DefaultLocale && reports[0] == ReportFor(d, c);
      ReportForMeaning(d, c);
    }
  }

  /** Every locale other than `_default` whose keys differ is printed by
      name, and so is every key in only one of it and the default. */
  lemma DifferingLocalesPrinted(messages: seq<Catalogue>, d: seq<string>)
    ensures forall c :: c in messages && c.locale != DefaultLocale && !SameKeys(d, c.keys) ==>
      c.locale in RenderReports(Reports(messages, d))
    ensures forall c, k ::
      (c in messages && c.locale != DefaultLocale && (k in d <==> k !in c.keys)) ==>
        ("    " + k) in RenderReports(Reports(messages, d))
  {
    var lines := RenderReports(Reports(messages, d));
    forall c | c in messages && c.locale != DefaultLocale && !SameKeys(d, c.keys)
      ensures Shown(ReportFor(d, c), lines)
    {
      ReportForMeaning(d, c);
    }
    forall c, k | c in messages && c.locale != DefaultLocale && (k in d <==> k !in c.keys)
      ensures ("    " + k) in lines
    {
      ReportForMeaning(d, c);
      assert Shown(ReportFor(d, c), lines);
    }
  }
}

=== FILE: extraction.dfy ===
/** The `extractMessages` task: the message descriptors collected from every
    source file are sorted by id before they are serialised. */
module Extraction {

  /** A react-intl message descriptor. Only `id` takes part in the ordering;
      the other fields are carried along unchanged. */
  datatype Message = Message(id: string, description: string, defaultMessage: string)

  /** `le(a, b)` stands for `a.localeCompare(b) <= 0`. The locale's collation
      is not modelled; all that is used is that it is a total preorder. */
  ghost predicate TotalPreorder(le: (string, string) -> bool) {
    && (forall a, b :: le(a, b) || le(b, a))
    && (forall a, b, c :: le(a, b) && le(b, c) ==> le(a, c))
  }

  /** Every message precedes every later one in id order. */
  ghost predicate SortedById(s: seq<Message>, le: (string, string) -> bool) {
    forall i, j :: 0 <= i < j < |s| ==> le(s[i].id, s[j].id)
  }

  /** All messages of all files, file after file, as the `through` stream
      pushes them. */
  function Collect(files: seq<seq<Message>>): (all: seq<Message>)
    ensures forall f, m :: f in files && m in f ==> m in all
    ensures |all| == 0 <==> forall f :: f in files ==> |f| == 0
  {
    if |files| == 0 then [] else files[0] + Collect(files[1..])
  }

  /** The number of messages collected is the sum over the files. */
  lemma {:induction false} CollectMultiset(files: seq<seq<Message>>, extra: seq<Message>)
    ensures multiset(Collect(files + [extra])) == multiset(Collect(files)) + multiset(extra)
    decreases |files|
  {
    if |files| == 0 {
      assert files + [extra] == [extra];
      assert Collect([extra]) == extra + Collect([]);
    } else {
      assert (files + [extra])[1..] == files[1..] + [extra];
      CollectMultiset(files[1..], extra);
    }
  }

  /** No message of `s` has an id before `id`. */
  ghost predicate NoneBefore(id: string, s: seq<Message>, le: (string, string) -> bool) {
    forall x :: x in s ==> le(id, x.id)
  }

  /** A message whose id comes no later than every id of a sorted sequence
      can be put in front of it. */
  lemma PrependSorted(x: Message, s: seq<Message>, le: (string, string) -> bool)
    requires SortedById(s, le)
    requires NoneBefore(x.id, s, le)
    ensures SortedById([x] + s, le)
  {
    var r := [x] + s;
    forall i, j | 0 <= i < j < |r|
      ensures le(r[i].id, r[j].id)
    {
      if i == 0 {
        assert r[j] == s[j - 1];
        assert s[j - 1] in s;
      } else {
        assert r[i] == s[i - 1] && r[j] == s[j - 1];
      }
    }
  }

  /** A message whose id comes no later than the first of a sorted sequence
      comes no later than any of it. */
  lemma BeforeHead(m: Message, s: seq<Message>, le: (string, string) -> bool)
    requires TotalPreorder(le)
    requires SortedById(s, le)
    requires |s| > 0 && le(m.id, s[0].id)
    ensures NoneBefore(m.id, s, le)
  {
    forall x | x in s ensures le(m.id, x.id) {
      var k :| 0 <= k < |s| && s[k] == x;
      if k > 0 {
        assert le(s[0].id, s[k].id);
      }
    }
  }

  /** When `m` does not come before the head of a sorted sequence, the head
      comes no later than `m` inserted into the tail. */
  lemma HeadBeforeRest(m: Message, s: seq<Message>, rest: seq<Message>, le: (string, string) -> bool)
    requires TotalPreorder(le)
    requires SortedById(s, le)
    requires |s| > 0 && !le(m.id, s[0].id)
    requires multiset(rest) == multiset(s[1..]) + multiset{m}
    ensures NoneBefore(s[0].id, rest, le)
  {
    forall x | x in rest ensures le(s[0].id, x.id) {
      assert x in multiset(rest);
      if x != m {
        assert x in multiset(s[1..]);
        var k :| 0 <= k < |s[1..]| && s[1..][k] == x;
        assert s[k + 1] == x;
      }
    }
  }

  /** The tail of a sorted sequence is sorted. */
  lemma SortedTail(s: seq<Message>, le: (string, string) -> bool)
    requires SortedById(s, le) && |s| > 0
    ensures SortedById(s[1..], le)
  {
    forall i, j | 0 <= i < j < |s[1..]| ensures le(s[1..][i].id, s[1..][j].id) {
      assert s[1..][i] == s[i + 1] && s[1..][j] == s[j + 1];
    }
  }

  /** Inserts `m` into an id-sorted sequence, keeping it sorted. */
  function Insert(m: Message, s: seq<Message>, le: (string, string) -> bool): (r: seq<Message>)
    requires TotalPreorder(le)
    requires SortedById(s, le)
    ensures multiset(r) == multiset(s) + multiset{m}
    ensures SortedById(r, le)
  {
    if |s| == 0 then [m]
    else if le(m.id, s[0].id) then
      BeforeHead(m, s, le);
      PrependSorted(m, s, le);
      [m] + s
    else
      assert s == [s[0]] + s[1..];
      SortedTail(s, le);
      var rest := Insert(m, s[1..], le);
      HeadBeforeRest(m, s, rest, le);
      PrependSorted(s[0], rest, le);
      [s[0]] + rest
  }

  /** `messages.sort((a, b) => a.id.localeCompare(b.id))`: the same messages,
      ordered by id. Which of two messages with equivalent ids comes first is
      left open. */
  function SortById(ms: seq<Message>, le: (string, string) -> bool): (r: seq<Message>)
    requires TotalPreorder(le)
    ensures multiset(r) == multiset(ms)
    ensures SortedById(r, le)
  {
    if |ms| == 0 then []
    else
      assert ms == [ms[0]] + ms[1..];
      Insert(ms[0], SortById(ms[1..], le), le)
  }

  /** What `extractMessages` serialises: every collected message exactly as
      often as it was collected, in id order. */
  function ExtractMessages(files: seq<seq<Message>>, le: (string, string) -> bool): (r: seq<Message>)
    requires TotalPreorder(le)
    ensures multiset(r) == multiset(Collect(files))
    ensures SortedById(r, le)
  {
    SortById(Collect(files), le)
  }
}

=== FILE: readiness.dfy ===
/** The server's stdout handler in the `to-html` task: on a chunk that
    contains the readiness marker it relocates the build, renders the pages,
    and then, whatever happened, kills the server and signals completion. */
module Readiness {
  import opened Results
  import opened Strings
  import opened BuildTree
  import opened Render

  /** The text the server prints once it listens. */
  const Marker := "Server started"

  /** What the `catch` block logs. */
  datatype Failure =
    | MoveFailed(error: FsError)        // moveAssets threw
    | FetchFailed(route: string)        // the Promise.all of toHtml rejected with this route's error

  /** The observable steps of one handler run, in order. */
  datatype Event =
    | Relocated                 // moveAssets returned
    | PagesRendered             // await toHtml() resolved
    | ErrorLogged(failure: Failure)
    | Killed                    // proc.kill()
    | Done                      // the task's done()
    | Announced                 // the closing console.log

  /** The `build` directory and everything the handler has done so far. */
  datatype World = World(build: Tree, trace: seq<Event>)

  /** The `finally` block. */
  const Cleanup: seq<Event> := [Killed, Done, Announced]

  /** What the `try` block (with its `catch`) leaves: the build directory
      and the events, in order. */
  datatype Attempted = Attempted(build: Tree, events: seq<Event>)

  /** The routes of the table whose fetch resolved. */
  ghost predicate Resolved(server: string -> Response, file: string) {
    exists rt :: rt in Urls && rt.file == file && server(rt.path).Response?
  }

  /** The `try` block and its `catch`. When `mkdirSync` throws, the error is
      logged and nothing else happens. Otherwise the build is relocated and
      the pages rendered: the rendering is reported when every route
      resolved, and otherwise the error of one failed route is logged. Even
      then the page of every route that resolved is written, because those
      `then` callbacks run independently of `Promise.all`. */
  function Attempt(build: Tree, server: string -> Response): (a: Attempted)
    ensures a.events == [ErrorLogged(MoveFailed(AlreadyExists(AssetsDir)))] <==> AssetsDir in build
    ensures AssetsDir in build ==> a.build == build
    ensures AssetsDir !in build ==> |a.events| == 2 && a.events[0] == Relocated
    ensures AssetsDir !in build ==>
      (a.events[1] == PagesRendered <==> forall rt :: rt in Urls ==> server(rt.path).Response?)
    ensures AssetsDir !in build && a.events[1] != PagesRendered ==>
      exists rt :: rt in Urls && server(rt.path).ConnectionError? &&
        a.events[1] == ErrorLogged(FetchFailed(rt.path))
    ensures AssetsDir !in build ==>
      forall n :: n in a.build <==> n == AssetsDir || Resolved(server, n)
    ensures AssetsDir !in build ==> AssetsDir in a.build && a.build[AssetsDir] == Dir(build)
    ensures AssetsDir !in build ==>
      forall rt :: rt in Urls && server(rt.path).Response? ==>
        rt.file in a.build && a.build[rt.file] == File(server(rt.path).body)
  {
    match Relocate(build)
    case Err(e) => Attempted(build, [ErrorLogged(MoveFailed(e))])
    case Ok(moved) =>
      var out := ToHtml(Urls, server);
      PagesLand(build, server);
      FailedRoutes(server);
      var built := ApplyWrites(moved, out.writes);
      if out.failed == [] then Attempted(built, [Relocated, PagesRendered])
      else Attempted(built, [Relocated, ErrorLogged(FetchFailed(out.failed[0]))])
  }

  /** After relocation, the pages of the resolved routes land beside
      `assets`, which keeps the old build. */
  lemma PagesLand(build: Tree, server: string -> Response)
    ensures var built := ApplyWrites(map[AssetsDir := Dir(build)], ToHtml(Urls, server).writes);
      && (forall n :: n in built <==> n == AssetsDir || Resolved(server, n))
      && AssetsDir in built && built[AssetsDir] == Dir(build)
      && forall rt :: rt in Urls && server(rt.path).Response? ==>
        rt.file in built && built[rt.file] == File(server(rt.path).body)
  {
    WritesLand(map[AssetsDir := Dir(build)], server);
    ResolvedAreWritten(server);
  }

  /** The writes of `toHtml` land on the relocated tree: each page holds its
      body, `assets` is untouched, and the only new names are the pages. */
  lemma WritesLand(moved: Tree, server: string -> Response)
    ensures var built := ApplyWrites(moved, ToHtml(Urls, server).writes);
      && (forall n :: n in built <==> n in moved || exists w :: w in ToHtml(Urls, server).writes && w.file == n)
      && (AssetsDir in moved ==> AssetsDir in built && built[AssetsDir] == moved[AssetsDir])
      && forall rt :: rt in Urls && server(rt.path).Response? ==>
        rt.file in built && built[rt.file] == File(server(rt.path).body)
  {
    var out := ToHtml(Urls, server);
    UrlsInjective();
    InjectiveRoutesDistinctTargets(Urls, server);
    ApplyWritesLand(moved, out.writes);
    assert forall w :: w in out.writes ==> w.file != AssetsDir;
    forall rt | rt in Urls && server(rt.path).Response?
      ensures Write(rt.file, server(rt.path).body) in out.writes
    {
    }
  }

  /** A file is written exactly when it belongs to a resolved route. */
  lemma ResolvedAreWritten(server: string -> Response)
    ensures forall n :: Resolved(server, n) <==> exists w :: w in ToHtml(Urls, server).writes && w.file == n
  {
    var out := ToHtml(Urls, server);
    forall n | Resolved(server, n) ensures exists w :: w in out.writes && w.file == n {
      var rt :| rt in Urls && rt.file == n && server(rt.path).Response?;
      assert Write(rt.file, server(rt.path).body) in out.writes;
    }
  }

  /** `Promise.all` rejects exactly when some route failed, and the route it
      reports is one of those. */
  lemma FailedRoutes(server: string -> Response)
    ensures ToHtml(Urls, server).failed == [] <==> forall rt :: rt in Urls ==> server(rt.path).Response?
    ensures ToHtml(Urls, server).failed != [] ==>
      exists rt :: rt in Urls && server(rt.path).ConnectionError? && rt.path == ToHtml(Urls, server).failed[0]
  {
    var out := ToHtml(Urls, server);
    if out.failed != [] {
      assert out.failed[0] in out.failed;
    }
  }

  /** One `data` event of the server's stdout. */
  function OnStdout(w: World, chunk: string, server: string -> Response): (w': World)
    ensures !Contains(chunk, Marker) ==> w' == w
    ensures Contains(chunk, Marker) ==>
      |w'.trace| >= |w.trace| + 4 && w'.trace[..|w.trace|] == w.trace
      && w'.trace[|w'.trace| - 3..] == Cleanup
    ensures Contains(chunk, Marker) ==>
      (w'.trace[|w.trace|] == Relocated <==> AssetsDir !in w.build)
    ensures Contains(chunk, Marker) && AssetsDir in w.build ==> w'.build == w.build
    ensures Contains(chunk, Marker) && AssetsDir !in w.build ==>
      AssetsDir in w'.build && w'.build[AssetsDir] == Dir(w.build)
  {
    if IndexOf(chunk, Marker) == -1 then w
    else
      var a := Attempt(w.build, server);
      var trace := w.trace + a.events + Cleanup;
      assert trace[..|w.trace|] == w.trace;
      assert trace[|trace| - 3..] == Cleanup;
      World(a.build, trace)
  }

  /** The events one handler run appends. */
  function NewEvents(w: World, w': World): seq<Event>
    requires |w.trace| <= |w'.trace|
  {
    w'.trace[|w.trace|..]
  }

  /** On a marker chunk the pages count as rendered exactly when `assets`
      could be created and every route's fetch resolved, and rendering is
      only ever reported right after the relocation. */
  lemma RenderedIff(w: World, chunk: string, server: string -> Response)
    requires Contains(chunk, Marker)
    ensures var w' := OnStdout(w, chunk, server);
      PagesRendered in NewEvents(w, w') <==>
        AssetsDir !in w.build && forall rt :: rt in Urls ==> server(rt.path).Response?
    ensures var w' := OnStdout(w, chunk, server);
      PagesRendered in NewEvents(w, w') ==>
        NewEvents(w, w') == [Relocated, PagesRendered] + Cleanup
  {
    var w' := OnStdout(w, chunk, server);
    assert NewEvents(w, w') == Attempt(w.build, server).events + Cleanup;
  }

  /** The successful run: with `bundle.js` in `build` and both routes
      answered, `bundle.js` ends up under `assets`, each page holds its
      route's body, and the server is killed and the task completed. */
  lemma PrerenderScenario(bundle: string, chunk: string, server: string -> Response)
    requires Contains(chunk, Marker)
    requires server("/").Response? && server("/404").Response?
    ensures var w' := OnStdout(World(map["bundle.js" := File(bundle)], []), chunk, server);
      && w'.build.Keys == {AssetsDir, "index.html", "404.html"}
      && w'.build[AssetsDir] == Dir(map["bundle.js" := File(bundle)])
      && w'.build["index.html"] == File(server("/").body)
      && w'.build["404.html"] == File(server("/404").body)
      && w'.trace == [Relocated, PagesRendered, Killed, Done, Announced]
  {
  }

  /** When `/404` cannot be fetched, the task still completes, the error is
      logged, and `index.html` is written all the same: the page of a route
      that resolved is not withheld because another route failed. */
  lemma PartialRender(build: Tree, chunk: string, server: string -> Response)
    requires Contains(chunk, Marker)
    requires AssetsDir !in build
    requires server("/").Response? && server("/404").ConnectionError?
    ensures var w' := OnStdout(World(build, []), chunk, server);
      && "index.html" in w'.build && w'.build["index.html"] == File(server("/").body)
      && "404.html" !in w'.build
      && w'.trace == [Relocated, ErrorLogged(FetchFailed("/404")), Killed, Done, Announced]
  {
  }

  /** A second marker chunk finds `assets` already present: `mkdirSync`
      throws, nothing is rendered or moved, and the server is killed and the
      task completed a second time. */
  lemma SecondMarker(w: World, c1: string, c2: string, server: string -> Response, server2: string -> Response)
    requires AssetsDir !in w.build
    requires Contains(c1, Marker) && Contains(c2, Marker)
    ensures var w1 := OnStdout(w, c1, server);
      var w2 := OnStdout(w1, c2, server2);
      && w2.build == w1.build
      && w2.trace == w1.trace + [ErrorLogged(MoveFailed(AlreadyExists(AssetsDir)))] + Cleanup
  {
  }

  /** The handler run over successive stdout chunks. */
  function OnChunks(w: World, chunks: seq<string>, server: string -> Response): World
    decreases |chunks|
  {
    if |chunks| == 0 then w else OnChunks(OnStdout(w, chunks[0], server), chunks[1..], server)
  }

  /** The number of occurrences of `e` in `trace`. */
  function Occurrences(e: Event, trace: seq<Event>): nat
    decreases |trace|
  {
    if |trace| == 0 then 0 else (if trace[0] == e then 1 else 0) + Occurrences(e, trace[1..])
  }

  /** The number of chunks that contain the marker. */
  ghost function MarkerChunks(chunks: seq<string>): nat
    decreases |chunks|
  {
    if |chunks| == 0 then 0 else (if Contains(chunks[0], Marker) then 1 else 0) + MarkerChunks(chunks[1..])
  }

  lemma {:induction false} OccurrencesAppend(e: Event, a: seq<Event>, b: seq<Event>)
    ensures Occurrences(e, a + b) == Occurrences(e, a) + Occurrences(e, b)
    decreases |a|
  {
    if |a| == 0 {
      assert a + b == b;
    } else {
      assert (a + b)[1..] == a[1..] + b;
      OccurrencesAppend(e, a[1..], b);
    }
  }

  /** One handler run kills the server and completes the task once per
      marker chunk and never otherwise. */
  lemma CleanupPerChunk(w: World, chunk: string, server: string -> Response)
    ensures Occurrences(Killed, OnStdout(w, chunk, server).trace) ==
      Occurrences(Killed, w.trace) + if Contains(chunk, Marker) then 1 else 0
    ensures Occurrences(Done, OnStdout(w, chunk, server).trace) ==
      Occurrences(Done, w.trace) + if Contains(chunk, Marker) then 1 else 0
  {
    if Contains(chunk, Marker) {
      var events := Attempt(w.build, server).events;
      assert OnStdout(w, chunk, server).trace == w.trace + (events + Cleanup);
      OccurrencesAppend(Killed, w.trace, events + Cleanup);
      OccurrencesAppend(Done, w.trace, events + Cleanup);
      OccurrencesAppend(Killed, events, Cleanup);
      OccurrencesAppend(Done, events, Cleanup);
    }
  }

  /** Over any stream of chunks, `proc.kill()` and `done()` run exactly as
      often as a chunk contains the marker: the handler is not disarmed after
      its first run. */
  lemma {:induction false} CleanupPerMarker(w: World, chunks: seq<string>, server: string -> Response)
    ensures Occurrences(Killed, OnChunks(w, chunks, server).trace) ==
      Occurrences(Killed, w.trace) + MarkerChunks(chunks)
    ensures Occurrences(Done, OnChunks(w, chunks, server).trace) ==
      Occurrences(Done, w.trace) + MarkerChunks(chunks)
    decreases |chunks|
  {
    if |chunks| > 0 {
      CleanupPerChunk(w, chunks[0], server);
      CleanupPerMarker(OnStdout(w, chunks[0], server), chunks[1..], server);
    }
  }
}

=== FILE: render.dfy ===
/** The `toHtml` step of the `to-html` task: fetch every route of the `urls`
    table from the running server and write each body to its file in
    `build`. */
module Render {
  import opened BuildTree

  /** One row of the `urls` table: a route and the file its page goes to. */
  datatype Route = Route(path: string, file: string)

  /** The `urls` table, in `Object.keys` order. */
  const Urls: seq<Route> := [Route("/", "index.html"), Route("/404", "404.html")]

  /** How the `http.get` of one route ended: the response's status and its
      whole body decoded as UTF-8, or the request's `error` event. */
  datatype Response = Response(status: int, body: string) | ConnectionError(reason: string)

  /** One `fs.writeFile('build/<file>', html)`. */
  datatype Write = Write(file: string, html: string)

  /** What `toHtml` leaves behind: the writes its `then` callbacks issue, and
      the routes whose fetch rejected. `Promise.all` rejects exactly when
      `failed` is non-empty. */
  datatype Rendered = Rendered(writes: seq<Write>, failed: seq<string>)

  /** No two routes share a path, and no two routes share a file. */
  ghost predicate Injective(routes: seq<Route>) {
    forall i, j :: 0 <= i < j < |routes| ==>
      routes[i].path != routes[j].path && routes[i].file != routes[j].file
  }

  /** No two writes target the same file. */
  ghost predicate DistinctTargets(writes: seq<Write>) {
    forall i, j :: 0 <= i < j < |writes| ==> writes[i].file != writes[j].file
  }

  /** The route table is injective, so no page overwrites another, and no
      page lands on `assets`. */
  lemma UrlsInjective()
    ensures Injective(Urls)
    ensures forall rt :: rt in Urls ==> rt.file != AssetsDir && |rt.path| > 0 && rt.path[0] == '/'
  {
    assert Urls[0].file[0] != Urls[1].file[0];
    assert Urls[0].file[0] != AssetsDir[0] && Urls[1].file[0] != AssetsDir[0];
  }

  /** `toHtml` with the server's answers given as `server`: one GET per
      route; each route whose fetch resolved has its body written to its
      file, whatever the HTTP status; each route whose fetch errored is
      recorded as failed. Both lists follow the route table; that is only how
      the model lists them, not the order in which responses arrive. */
  function ToHtml(routes: seq<Route>, server: string -> Response): (r: Rendered)
    ensures |r.writes| + |r.failed| == |routes|
    ensures forall w :: w in r.writes <==>
      exists rt :: rt in routes && server(rt.path).Response? && w == Write(rt.file, server(rt.path).body)
    ensures forall p :: p in r.failed <==>
      exists rt :: rt in routes && rt.path == p && server(p).ConnectionError?
  {
    if |routes| == 0 then Rendered([], [])
    else
      var rt := routes[0];
      var rest := ToHtml(routes[1..], server);
      assert forall x :: x in routes <==> x == rt || x in routes[1..];
      match server(rt.path)
      case Response(_, body) => Rendered([Write(rt.file, body)] + rest.writes, rest.failed)
      case ConnectionError(_) => Rendered(rest.writes, [rt.path] + rest.failed)
  }

  /** When every fetch resolves, `toHtml` issues exactly one write per route,
      to that route's file and with that route's body. The model lists the
      writes in route order; the program issues each one when its response
      arrives. */
  lemma {:induction false} AllResolvedWritesEveryRoute(routes: seq<Route>, server: string -> Response)
    requires forall rt :: rt in routes ==> server(rt.path).Response?
    ensures ToHtml(routes, server).failed == []
    ensures |ToHtml(routes, server).writes| == |routes|
    ensures forall i :: 0 <= i < |routes| ==>
      ToHtml(routes, server).writes[i] == Write(routes[i].file, server(routes[i].path).body)
    decreases |routes|
  {
    if |routes| > 0 {
      assert routes[0] in routes;
      assert forall rt :: rt in routes[1..] ==> rt in routes;
      AllResolvedWritesEveryRoute(routes[1..], server);
    }
  }

  /** The writes of an injective route table target distinct files. */
  lemma {:induction false} InjectiveRoutesDistinctTargets(routes: seq<Route>, server: string -> Response)
    requires Injective(routes)
    ensures DistinctTargets(ToHtml(routes, server).writes)
    decreases |routes|
  {
    if |routes| > 0 {
      var rest := ToHtml(routes[1..], server);
      assert Injective(routes[1..]) by {
        forall i, j | 0 <= i < j < |routes[1..]|
          ensures routes[1..][i].file != routes[1..][j].file
        {
          assert routes[1..][i] == routes[i + 1] && routes[1..][j] == routes[j + 1];
        }
      }
      InjectiveRoutesDistinctTargets(routes[1..], server);
      forall w | w in rest.writes
        ensures w.file != routes[0].file
      {
        var rt :| rt in routes[1..] && server(rt.path).Response? && w == Write(rt.file, server(rt.path).body);
        var k :| 0 <= k < |routes[1..]| && routes[1..][k] == rt;
        assert routes[k + 1] == rt;
      }
      var r := ToHtml(routes, server);
      forall i, j | 0 <= i < j < |r.writes|
        ensures r.writes[i].file != r.writes[j].file
      {
        if server(routes[0].path).Response? {
          if i == 0 {
            assert r.writes[j] == rest.writes[j - 1];
            assert rest.writes[j - 1] in rest.writes;
          } else {
            assert r.writes[i] == rest.writes[i - 1] && r.writes[j] == rest.writes[j - 1];
          }
        }
      }
    }
  }

  /** One write landing in `build`: the file is created, or its contents
      replaced, and nothing else changes. */
  function ApplyWrite(root: Tree, w: Write): (r: Tree)
    ensures r.Keys == root.Keys + {w.file}
    ensures r[w.file] == File(w.html)
    ensures forall n :: n in root && n != w.file ==> r[n] == root[n]
  {
    root[w.file := File(w.html)]
  }

  /** All the writes, once they have landed. */
  function ApplyWrites(root: Tree, writes: seq<Write>): Tree
    decreases |writes|
  {
    if |writes| == 0 then root else ApplyWrites(ApplyWrite(root, writes[0]), writes[1..])
  }

  /** When the writes target distinct files, each file ends up holding exactly its write's contents and everything
      else is unchanged. This does not depend on the order in which the
      unsequenced writes complete. */
  lemma {:induction false} ApplyWritesLand(root: Tree, writes: seq<Write>)
    requires DistinctTargets(writes)
    ensures forall w :: w in writes ==> w.file in ApplyWrites(root, writes) && ApplyWrites(root, writes)[w.file] == File(w.html)
    ensures forall n :: n in ApplyWrites(root, writes) <==> n in root || exists w :: w in writes && w.file == n
    ensures forall n :: n in root && (forall w :: w in writes ==> w.file != n) ==> ApplyWrites(root, writes)[n] == root[n]
    decreases |writes|
  {
    if |writes| > 0 {
      var w0 := writes[0];
      var next := ApplyWrite(root, w0);
      assert DistinctTargets(writes[1..]) by {
        forall i, j | 0 <= i < j < |writes[1..]|
          ensures writes[1..][i].file != writes[1..][j].file
        {
          assert writes[1..][i] == writes[i + 1] && writes[1..][j] == writes[j + 1];
        }
      }
      forall w | w in writes[1..]
        ensures w.file != w0.file
      {
        var k :| 0 <= k < |writes[1..]| && writes[1..][k] == w;
        assert writes[k + 1] == w;
      }
      assert forall w :: w in writes <==> w == w0 || w in writes[1..];
      ApplyWritesLand(next, writes[1..]);
    }
  }
}

=== FILE: results.dfy ===
/** The success-or-error value every fallible step of the model returns. */
module Results {

  /** `Ok` carries the value of a step that returned normally; `Err` the
      error a step threw (a Node `fs` error, a rejected promise, ...). */
  datatype Result<+T, +E> = Ok(value: T) | Err(error: E)

  /** The conventional Some/None datatype, used for lookups that may miss. */
  datatype Option<+T> = None | Some(value: T)
}

=== FILE: strings.dfy ===
/** `String.prototype.indexOf` as the stdout readiness handler uses it. */
module Strings {

  /** `pat` occurs in `s` starting at index `i`. */
  predicate MatchesAt(s: string, pat: string, i: nat) {
    i + |pat| <= |s| && s[i..i + |pat|] == pat
  }

  /** `pat` occurs somewhere in `s`. */
  ghost predicate Contains(s: string, pat: string) {
    exists i: nat :: MatchesAt(s, pat, i)
  }

  /** The first index at or after `from` where `pat` occurs in `s`, or -1. */
  function IndexOfFrom(s: string, pat: string, from: nat): (r: int)
    ensures r == -1 || (from <= r && MatchesAt(s, pat, r))
    ensures r == -1 <==> forall i: nat :: from <= i ==> !MatchesAt(s, pat, i)
    ensures r != -1 ==> forall i: nat :: from <= i < r ==> !MatchesAt(s, pat, i)
    decreases |s| - from
  {
    if from + |pat| > |s| then -1
    else if s[from..from + |pat|] == pat then from
    else IndexOfFrom(s, pat, from + 1)
  }

  /** `s.indexOf(pat)`: the first occurrence of `pat` in `s`, or -1 when there
      is none (an empty `pat` is found at 0). */
  function IndexOf(s: string, pat: string): (r: int)
    ensures -1 <= r
    ensures r == -1 <==> !Contains(s, pat)
    ensures r != -1 ==> MatchesAt(s, pat, r)
    ensures r != -1 ==> forall i: nat :: i < r ==> !MatchesAt(s, pat, i)
  {
    IndexOfFrom(s, pat, 0)
  }
}
